=== FILE: README.md ===
# Assessment platform back end: decision rules, in Dafny

This project models the logic that the REST back end of an assessment
platform (users, candidate profiles, question banks, tests, assessments,
test invitations and reviews) runs inside its route handlers and document
schemas:

- the test-invitation lifecycle: issuing an invitation (three ordered
  checks, then the new document with its schema defaults) and the listing
  route, which walks the fetched non-expired invitations and marks expired,
  in place, every one whose `validUntil` has passed;
- the review gate: a review is stored only for an existing, completed
  invitation, under the schema's rating and comment bounds;
- the assessment pre-save hook, which recomputes `totalTime` from the
  distinct tests the sections refer to;
- the question query filter and the construction of a new question;
- the check-then-insert that keeps one candidate profile per user;
- the role-check middleware.

The document store is a Dafny `seq` per collection (or a `set` of
identifiers where only existence is asked); the current time is an integer
parameter `now`; the authenticated user is a `Principal` parameter; an
HTTP answer is an `Outcome` (`Created(document)` or `Rejected(code,
message)`), and `Commit` gives the collection after a handler ran.
Dates are instants, with `None` standing for JavaScript's Invalid Date:
every comparison with it is false, which the model keeps.

Files: `http.dfy` (shared vocabulary), `auth.dfy`, `invitation_schema.dfy`,
`invitation_routes.dfy`, `review_schema.dfy`, `review_routes.dfy`,
`assessment.dfy`, `question_routes.dfy`, `candidate_profile.dfy`.

## Behaviour followed from the code

- The listing sweep expires every fetched invitation whose `validUntil` is
  strictly before `now`, whatever its status, `completed` included; an
  invitation whose `validUntil` equals `now` stays as it is, and one without
  `validUntil` never expires. `ListingBlocksReviewOfDueInvitation` shows the
  consequence: a completed invitation past its window can no longer be
  reviewed once the list has been read.
- There is no `rejected` status and no transition to `accepted` or
  `completed` in the code.
- An assessment that does not exist is answered with 400, not 404.
- A review whose rating lies outside 1..5, or whose comments exceed 500
  characters, passes the handler's own gate and fails the schema validation
  on save; the handler's catch answers 500.
- A date comparison with an absent or unparseable date is false. An
  unusable `validFrom` therefore skips both date checks
  (`MissingDatesSkipChecks`); an unusable `validUntil` skips only the
  second, and `validFrom <= now` still refuses the request.
- Query parameters and `paragraphText` count as given only when they are
  non-empty strings (JavaScript truthiness); `fillInTheBlanks`, an array,
  counts as given whenever it is present.
- A `findOne` whose filter value is absent drops that key, so the filter
  matches every document and the first one is found. A question request
  without `questionType` therefore gets the first question type whenever
  one exists, never the 400; a profile request without `user` is answered
  400 "Profile already exists for this user." whenever any profile exists,
  and otherwise fails the required `user` check on save (500).

## Model

| member | source | states |
|---|---|---|
| `Auth.Includes` | middileware/auth.js:5 | the scan of the role list finds the role exactly when it is a member; an empty list finds nothing |
| `Auth.RoleCheck` | middileware/auth.js:4-9 | the request proceeds if and only if the role is in the list; otherwise the answer is 403 "Access denied" |
| `Auth.Guard` | middileware/auth.js:5-8 | an allowed request gets the handler's own response untouched; a denied one gets the 403 and the handler's outcome is discarded |
| `Auth.EmptyRolesDenyAll` | middileware/auth.js:5 | with an empty role list every request is answered 403 |
| `InvitationSchema.StatusName` | models/TestInvitation.model.js:16 | every status is written as one of the four enumeration names |
| `InvitationSchema.ResultStatusName` | models/TestInvitation.model.js:19 | every result status is written as one of the three enumeration names |
| `InvitationSchema.CastStatus` | models/TestInvitation.model.js:16 | an unset status becomes `pending`; a given one is accepted exactly when it is one of the four names, and then denotes that name |
| `InvitationSchema.CastResultStatus` | models/TestInvitation.model.js:17-20 | an unset result status becomes `not_attempted`; a given one is accepted exactly when it is one of the three names |
| `InvitationSchema.StatusNamesRoundTrip` | models/TestInvitation.model.js:16-20 | writing a status or result status out and casting it back gives the same value |
| `InvitationSchema.NewIncident` | models/TestInvitation.model.js:21-24 | an incident keeps its description; its timestamp defaults to the creation instant |
| `InvitationSchema.NewInvitation` | models/TestInvitation.model.js:4-28 | a new document is `pending` with result `not_attempted` and no score, no incidents, sent now, not completed, and carries the given fields |
| `InvitationSchema.MissingRequired` | models/TestInvitation.model.js:5-15 | a document is valid exactly when `assessment` and `candidate` are present and `passkey` is a non-empty string (a required string path rejects ""); otherwise the first missing one in that order is named, each exactly when those before it are present and it is absent |
| `InvitationSchema.FindById` | routes/review.routes.js:50 | the lookup finds a document with the identifier when one exists, and nothing for an absent identifier or an unknown one |
| `InvitationRoutes.Issue` | routes/testInvitation.routes.js:53-75 | 400 "validFrom must be in the future." iff `validFrom <= now`; else 400 "validUntil must be after validFrom." iff `validUntil <= validFrom`; else 400 "Assessment not found" iff the assessment is absent; otherwise, exactly when all three checks pass, a `pending` invitation carrying assessment, user, validFrom, validUntil and the caller as creator |
| `InvitationRoutes.IssuedWindowIsAhead` | routes/testInvitation.routes.js:54-59 | an issued invitation with both dates given has `now < validFrom < validUntil` |
| `InvitationRoutes.MissingDatesSkipChecks` | routes/testInvitation.routes.js:54-59 | without a usable `validFrom`, an existing assessment is enough for the request to succeed |
| `InvitationRoutes.IssuedLacksRequiredFields` | routes/testInvitation.routes.js:67-73 | the document the route builds lacks both schema-required `candidate` and `passkey`, and the first path validation names is `candidate` |
| `InvitationRoutes.DateComparisons` | routes/testInvitation.routes.js:54-57 | `DateAtMost` and `DateBefore`, the `<=` and `<` on `new Date(...)` values: with an Invalid Date on either side neither holds in either order; with two valid dates `a < b` holds exactly when `b <= a` fails |
| `InvitationRoutes.DueStaysDue` | routes/testInvitation.routes.js:98 | `Due`, the sweep's test `validUntil < now`: an invitation without a usable `validUntil` is never due, and a due one stays due at every later instant |
| `InvitationRoutes.ExpireIfDue` | routes/testInvitation.routes.js:98-101 | only the status may change; it ends `expired` iff the invitation was due (`validUntil < now`) or already expired; a not-due invitation is untouched |
| `InvitationRoutes.Swept` | routes/testInvitation.routes.js:96-104 | the swept list keeps the fetched list's length and order and differs from it only in statuses; an invitation ends expired iff it was due or already expired; invitations with `validUntil >= now` or none are unchanged |
| `InvitationRoutes.NotExpiredPositions` | routes/testInvitation.routes.js:94 | the positions, in increasing order, are exactly those of the documents whose status is not `expired` |
| `InvitationRoutes.FindNotExpired` | routes/testInvitation.routes.js:94 | the fetched list holds exactly the stored invitations whose status is not `expired`, once each and in collection order (position by position, the documents at the not-expired positions) |
| `InvitationRoutes.PartlySweptAt` | routes/testInvitation.routes.js:96-102 | after the loop has visited the first k fetched documents, exactly those have been saved back swept |
| `InvitationRoutes.FullySwept` | routes/testInvitation.routes.js:94-102 | visiting every fetched document sweeps the whole collection |
| `InvitationRoutes.SweepKeepsIds` | routes/testInvitation.routes.js:96-102 | the sweep keeps document identifiers unique |
| `InvitationRoutes.SweepIdempotent` | routes/testInvitation.routes.js:94-102 | sweeping twice at the same instant equals sweeping once |
| `InvitationRoutes.NothingDueAfterSweep` | routes/testInvitation.routes.js:94-101 | after a listing, no invitation the next listing fetches is due |
| `InvitationRoutes.SecondListingChangesNothing` | routes/testInvitation.routes.js:94-104 | a second listing at the same instant returns its fetched list unchanged and changes no stored invitation |
| `InvitationRoutes.InvitationCollection.Post` | routes/testInvitation.routes.js:47-87 | the answer is the role check (`hr`, `admin`) followed by `Issue`; the collection gains exactly the created invitation, or nothing on a rejection; identifiers stay unique |
| `InvitationRoutes.InvitationCollection.List` | routes/testInvitation.routes.js:91-108 | the returned list is the fetched non-expired list, same order and length, swept; the stored collection is swept in the same way |
| `InvitationRoutes.InvitationCollection.ExpireEach` | routes/testInvitation.routes.js:96-102 | the loop sweeps the fetched list in place and saves each expired invitation back at its own position |
| `ReviewSchema.FailedPath` | models/Review.model.js:4-29 | a review may be stored exactly when both references are present, the rating is given and in 1..5, and comments are absent or at most 500 characters; otherwise the first failing path in schema order is named (`testInvitation`, `candidate`, `rating`, `comments`), each exactly when the constraints before it hold and its own fails |
| `ReviewSchema.NewReview` | models/Review.model.js:25-28 | a new review carries the given fields and `createdAt` defaults to the creation instant |
| `ReviewRoutes.ReviewableIffCompleted` | routes/review.routes.js:50-51 | `Reviewable`, the completion gate: with unique identifiers, a review passes it exactly when an invitation with the given identifier exists and is `completed` |
| `ReviewRoutes.SubmitReview` | routes/review.routes.js:45-68 | 400 iff the invitation does not resolve or is not `completed`; created iff additionally rating in 1..5 and comments within 500 characters (otherwise 500 from the failed save); the review's candidate is the caller and its invitation, rating and comments are the request's |
| `ReviewRoutes.SubmissionStoresAtMostOne` | routes/review.routes.js:50-64 | a rejected submission leaves the reviews unchanged; an accepted one adds exactly the created review |
| `ReviewRoutes.FindByIdAfterSweep` | routes/review.routes.js:50 | looking an invitation up after a sweep finds the swept version of what was found before |
| `ReviewRoutes.ListingBlocksReviewOfDueInvitation` | routes/testInvitation.routes.js:98-100 | a completed but due invitation, once listed, can no longer be reviewed (400) |
| `AssessmentModel.ReferencedIds` | model/Assessment.model.js:18 | the identifier set contains the test of every section and nothing else |
| `AssessmentModel.Matching` | model/Assessment.model.js:19 | the lookup returns exactly the test documents whose identifier is referenced, never more than the collection holds |
| `AssessmentModel.TimeOf` | model/Test.model.js:11 | a test that no document carries has no time; otherwise the time allocation of the first document with that identifier |
| `AssessmentModel.SumTime` | model/Assessment.model.js:20 | the `reduce` from 0: no tests sum to 0, non-negative allocations give a non-negative total, and all-zero allocations give 0 |
| `AssessmentModel.TotalTime` | model/Assessment.model.js:17-21 | the value the hook stores: 0 when the sections refer to no test, and non-negative when every allocation is; its exact value is stated by `TotalTimeIsSectionwise`, `TotalTimeAddSection` and `SectionOrderIrrelevant` |
| `AssessmentModel.SumTimeAppend` | model/Assessment.model.js:20 | the `reduce` sum distributes over concatenation |
| `AssessmentModel.MatchingIgnoresAbsent` | model/Assessment.model.js:19 | an identifier no test carries changes nothing the lookup returns |
| `AssessmentModel.MatchingAddId` | model/Assessment.model.js:19-20 | adding one new identifier to the lookup adds exactly that test's time |
| `AssessmentModel.TotalTimeNoSections` | model/Assessment.model.js:17-21 | an assessment without sections gets `totalTime` 0 |
| `AssessmentModel.TotalTimeAddSection` | model/Assessment.model.js:18-20 | appending a section adds its test's time, unless that test is already referenced (counted once) or missing (adds 0) |
| `AssessmentModel.MissingTestAddsNothing` | model/Assessment.model.js:19-20 | a section whose test does not exist contributes nothing |
| `AssessmentModel.TotalTimeIsSectionwise` | model/Assessment.model.js:18-20 | the total equals the sum, over the distinct referenced tests in section order, of their time allocations |
| `AssessmentModel.SectionOrderIrrelevant` | model/Assessment.model.js:18-20 | reordering the sections does not change the total |
| `AssessmentModel.AssessmentDoc.constructor` | model/Assessment.model.js:5-14 | a new document built from the request body keeps its sections, creator, `instructions` and `totalTime`, with unset `instructions` defaulting to the empty string and unset `totalTime` to 0 |
| `AssessmentModel.AssessmentDoc.PreSave` | model/Assessment.model.js:17-22 | whatever `totalTime` held, it becomes the total over the distinct referenced tests; nothing else changes |
| `QuestionRoutes.BuildFilter` | routes/question.routes.js:219-228 | each of `difficulty`, `questionType`, `createdBy` is a key iff its parameter is given, with the same value; `isLibraryQuestion` is a key iff given, with value true iff the parameter is exactly "true"; no other key; an empty query gives an empty filter |
| `QuestionRoutes.FindTypeByName` | routes/question.routes.js:283 | for a given name, a type with the name is found when one exists, the first one in collection order, and nothing otherwise; for an absent name, the first type of the collection, and nothing only when there are no types |
| `QuestionRoutes.CreateQuestion` | routes/question.routes.js:277-310 | 403 without the `technical_expert` role; 400 "Invalid question type" iff the lookup finds no type; created exactly when the role is allowed and the lookup finds a type, so a request without `questionType` gets the first type whenever one exists; a created question is a library question of the caller with the found type's id and the request's text, options and difficulty; it has blanks iff the type name is `fill_in_the_blanks` and blanks were given, paragraph text iff the name is `paragraph` and text was given |
| `CandidateProfileRoutes.FindByUser` | routes/candidateProfile.routes.js:39 | for a given user, a profile of that user is found exactly when one exists; for an absent user, the first profile of the collection, and nothing only when the collection is empty |
| `CandidateProfileRoutes.CreateOutcome` | routes/candidateProfile.routes.js:36-58 | 400 "Profile already exists for this user." iff the user has a profile, or, for a request without `user`, iff any profile exists; 500 iff the request has no `user` and no profile exists (the required check on save); otherwise a profile carrying the ten request fields unchanged, created and updated now |
| `CandidateProfileRoutes.CreatePreservesUniqueness` | routes/candidateProfile.routes.js:39-57 | one creation keeps at most one profile per user |
| `CandidateProfileRoutes.CreateAllPreservesUniqueness` | routes/candidateProfile.routes.js:39-57 | from a collection with at most one profile per user, any sequence of creations keeps at most one per user |
| `CandidateProfileRoutes.ProfileCollection.Create` | routes/candidateProfile.routes.js:34-62 | a duplicate user, or a missing user, is refused and the collection is unchanged; otherwise exactly the new profile is appended and returned (201); the one-per-user invariant is kept |

## Left out

- Express and Mongoose plumbing (routers, `res.status().json`, `populate`, the `save`/`find` calls themselves) and `server.js`: the collections are sequences and the answers are `Outcome` values.
- The pass-through CRUD handlers (question types, and the create routes for tests, assessments and users): they contain no decision.
- Sending the invitation e-mail and looking the user up for it (routes/testInvitation.routes.js:78-81): external I/O with no effect on the stored invitation.
- Store failures answered 500 by each handler's catch: the only 500 modelled is the review's failed schema validation.
- `Assessment` is used without being imported at routes/testInvitation.routes.js:62; the model treats it as the lookup the code evidently means, a set of existing assessment identifiers.
- Schema validation of the issued invitation on save: the route sets neither the required `candidate` nor `passkey` (see `IssuedLacksRequiredFields`), and Mongoose's strict mode would drop `user`, `validFrom` and `createdBy`; the model stores the record the route builds.
- Passkey generation, a `rejected` status, completing an invitation and recording incidents: the code contains none of them.
- `InvitationCollection.List`: the `save()` inside the loop is not awaited in the source; the model performs it synchronously and does not model the race.
- The `authMiddleware` the review and profile routes use is not part of this model; the authenticated user's identifier is a parameter.
- Casting, defaults and validation of the saved question and profile documents (models/Question.model.js, model/Question.model.js, models/CandidateProfile.model.js), including the unique index on `user` under concurrent requests.
- Fractional time allocations: `timeAllocation` is a JavaScript `Number` (a double); the model takes time allocations as integer minutes with exact addition, so rounding in a floating-point sum of fractional minutes, which could make the collection-order and section-order sums differ, is not modelled.
- Query parameters given more than once (which Express turns into arrays), non-integer or string ratings, and the UTF-16 length JavaScript measures for `comments` (the model counts characters).
- `ReviewSchema.FailedPath`: Mongoose reports every failing path at once; the model names the first in schema order.
- `InvitationSchema.MissingRequired`: Mongoose reports every missing required path at once; the model names the first in schema order (`assessment`, `candidate`, `passkey`).

=== FILE: assessment.dfy ===
/** The assessment document and its pre-save hook, which recomputes
    `totalTime` from the tests its sections refer to. */
module AssessmentModel {
  import opened Http

  /** One section of an assessment: the test it runs and its position. */
  datatype Section = Section(test: Id, order: int)

  /** The part of a test document the hook reads: its identifier and its
      time allocation in minutes. */
  datatype TestDoc = TestDoc(id: Id, timeAllocation: int)

  /** The identifiers the sections refer to, as the `$in` filter sees them. */
  function ReferencedIds(sections: seq<Section>): (ids: set<Id>)
    ensures forall sec :: sec in sections ==> sec.test in ids
    ensures forall id :: id in ids ==> exists sec :: sec in sections && sec.test == id
  {
    set sec | sec in sections :: sec.test
  }

  /** `find({_id: {$in: ids}})`: the test documents whose identifier is
      among `ids`, each document once, in collection order. */
  function Matching(tests: seq<TestDoc>, ids: set<Id>): (r: seq<TestDoc>)
    ensures forall t :: t in r <==> t in tests && t.id in ids
    ensures |r| <= |tests|
  {
    if tests == [] then []
    else (if tests[0].id in ids then [tests[0]] else []) + Matching(tests[1..], ids)
  }

  /** `reduce((total, test) => total + test.timeAllocation, 0)`, a fold from the left. */
  function SumTime(tests: seq<TestDoc>): (total: int)
    ensures tests == [] ==> total == 0
    ensures (forall t :: t in tests ==> t.timeAllocation >= 0) ==> total >= 0
    ensures (forall t :: t in tests ==> t.timeAllocation == 0) ==> total == 0
  {
    if tests == [] then 0 else SumTime(tests[..|tests| - 1]) + tests[|tests| - 1].timeAllocation
  }

  /** The value the hook stores in `totalTime`. */
  function TotalTime(sections: seq<Section>, tests: seq<TestDoc>): (total: int)
    ensures ReferencedIds(sections) == {} ==> total == 0
    ensures (forall t :: t in tests ==> t.timeAllocation >= 0) ==> total >= 0
  {
    SumTime(Matching(tests, ReferencedIds(sections)))
  }

  /** No two test documents share an identifier. */
  predicate UniqueIds(tests: seq<TestDoc>) {
    forall i, j :: 0 <= i < j < |tests| ==> tests[i].id != tests[j].id
  }

  /** The time allocation of the test with identifier `id`; a missing test has none. */
  function TimeOf(tests: seq<TestDoc>, id: Id): (t: int)
    ensures (forall d :: d in tests ==> d.id != id) ==> t == 0
    ensures tests != [] && tests[0].id == id ==> t == tests[0].timeAllocation
    ensures forall i :: 0 <= i < |tests| && tests[i].id == id && (forall j :: 0 <= j < i ==> tests[j].id != id) ==>
              t == tests[i].timeAllocation
  {
    if tests == [] then 0
    else if tests[0].id == id then tests[0].timeAllocation
    else TimeOf(tests[1..], id)
  }

  /** The fold distributes over concatenation. */
  lemma {:induction false} SumTimeAppend(a: seq<TestDoc>, b: seq<TestDoc>)
    ensures SumTime(a + b) == SumTime(a) + SumTime(b)
  {
    if b == [] {
      assert a + b == a;
    } else {
      var b' := b[..|b| - 1];
      assert (a + b)[..|a + b| - 1] == a + b';
      SumTimeAppend(a, b');
    }
  }

  /** Adding an identifier no test document carries changes nothing the lookup returns. */
  lemma {:induction false} MatchingIgnoresAbsent(tests: seq<TestDoc>, ids: set<Id>, id: Id)
    requires forall d :: d in tests ==> d.id != id
    ensures Matching(tests, ids + {id}) == Matching(tests, ids)
  {
    if tests != [] {
      MatchingIgnoresAbsent(tests[1..], ids, id);
    }
  }

  /** Adding a new identifier to the lookup adds the time of the one test
      carrying it, if any. */
  lemma {:induction false} MatchingAddId(tests: seq<TestDoc>, ids: set<Id>, id: Id)
    requires UniqueIds(tests)
    requires id !in ids
    ensures SumTime(Matching(tests, ids + {id})) == SumTime(Matching(tests, ids)) + TimeOf(tests, id)
  {
    if tests != [] {
      var rest := tests[1..];
      assert UniqueIds(rest);
      var withId := if tests[0].id in ids + {id} then [tests[0]] else [];
      var without := if tests[0].id in ids then [tests[0]] else [];
      SumTimeAppend(withId, Matching(rest, ids + {id}));
      SumTimeAppend(without, Matching(rest, ids));
      if tests[0].id == id {
        assert forall d :: d in rest ==> d.id != id by {
          forall d | d in rest ensures d.id != id {
            var j :| 0 <= j < |rest| && rest[j] == d;
            assert tests[j + 1] == d;
          }
        }
        MatchingIgnoresAbsent(rest, ids, id);
      } else {
        MatchingAddId(rest, ids, id);
      }
    }
  }

  /** An assessment without sections gets a total time of 0. */
  lemma TotalTimeNoSections(tests: seq<TestDoc>)
    ensures TotalTime([], tests) == 0
  {
  }

  /** Appending a section adds the time of its test, unless an earlier
      section already refers to that test (it is counted once) or no test
      carries its identifier (it contributes nothing). */
  lemma TotalTimeAddSection(sections: seq<Section>, sec: Section, tests: seq<TestDoc>)
    requires UniqueIds(tests)
    ensures TotalTime(sections + [sec], tests) ==
              TotalTime(sections, tests) + (if sec.test in ReferencedIds(sections) then 0 else TimeOf(tests, sec.test))
  {
    assert ReferencedIds(sections + [sec]) == ReferencedIds(sections) + {sec.test};
    if sec.test !in ReferencedIds(sections) {
      MatchingAddId(tests, ReferencedIds(sections), sec.test);
    } else {
      assert ReferencedIds(sections + [sec]) == ReferencedIds(sections);
    }
  }

  /** A section whose test no document carries contributes nothing, whether
      or not the identifiers are unique. */
  lemma MissingTestAddsNothing(sections: seq<Section>, sec: Section, tests: seq<TestDoc>)
    requires forall d :: d in tests ==> d.id != sec.test
    ensures TotalTime(sections + [sec], tests) == TotalTime(sections, tests)
  {
    assert ReferencedIds(sections + [sec]) == ReferencedIds(sections) + {sec.test};
    MatchingIgnoresAbsent(tests, ReferencedIds(sections), sec.test);
  }

  /** A reference definition: walk the sections in order and add the time
      of each test the first time a section refers to it. */
  function SectionwiseTime(sections: seq<Section>, tests: seq<TestDoc>): int
  {
    if sections == [] then 0
    else
      var prefix := sections[..|sections| - 1];
      var last := sections[|sections| - 1];
      SectionwiseTime(prefix, tests) + (if last.test in ReferencedIds(prefix) then 0 else TimeOf(tests, last.test))
  }

  /** The stored total is the sum, over the distinct tests the sections
      refer to, of their time allocations. */
  lemma {:induction false} TotalTimeIsSectionwise(sections: seq<Section>, tests: seq<TestDoc>)
    requires UniqueIds(tests)
    ensures TotalTime(sections, tests) == SectionwiseTime(sections, tests)
  {
    if sections == [] {
      TotalTimeNoSections(tests);
    } else {
      var prefix := sections[..|sections| - 1];
      var last := sections[|sections| - 1];
      assert sections == prefix + [last];
      TotalTimeIsSectionwise(prefix, tests);
      TotalTimeAddSection(prefix, last, tests);
    }
  }

  /** Reordering or regrouping the sections leaves the total unchanged. */
  lemma SectionOrderIrrelevant(s1: seq<Section>, s2: seq<Section>, tests: seq<TestDoc>)
    requires multiset(s1) == multiset(s2)
    ensures TotalTime(s1, tests) == TotalTime(s2, tests)
  {
    assert forall sec :: sec in s1 <==> sec in multiset(s1);
    assert forall sec :: sec in s2 <==> sec in multiset(s2);
    assert ReferencedIds(s1) == ReferencedIds(s2);
  }

  /** An assessment document. */
  class AssessmentDoc {
    var sections: seq<Section>
    var instructions: string
    var totalTime: int
    var createdBy: Id

    /** A new document built from the request body; unset `instructions`
        and `totalTime` take their defaults, the empty string and 0. */
    constructor (sections: seq<Section>, instructions: Option<string>, totalTime: Option<int>, createdBy: Id)
      ensures this.sections == sections && this.createdBy == createdBy
      ensures this.instructions == instructions.GetOr("") && this.totalTime == totalTime.GetOr(0)
    {
      this.sections := sections;
      this.instructions := instructions.GetOr("");
      this.totalTime := totalTime.GetOr(0);
      this.createdBy := createdBy;
    }

    /** The pre-save hook: whatever `totalTime` held, it is replaced by the
        total over the tests the sections refer to. */
    method PreSave(tests: seq<TestDoc>)
      modifies this`totalTime
      ensures totalTime == TotalTime(sections, tests)
    {
      var testIds := ReferencedIds(sections);
      var found := Matching(tests, testIds);
      totalTime := SumTime(found);
    }
  }
}

=== FILE: auth.dfy ===
/** The role-check middleware: a request goes on to its handler only when
    the caller's role is one of the roles the route admits. */
module Auth {
  import opened Http

  /** What the middleware does with a request: call `next`, or answer itself. */
  datatype Decision = Proceed | Deny(code: int, message: string)

  const AccessDenied := "Access denied"

  /** `roles.includes(role)`: a scan of the list for an equal string. */
  function Includes(roles: seq<string>, role: string): (found: bool)
    ensures found <==> role in roles
    ensures roles == [] ==> !found
  {
    if roles == [] then false
    else roles[0] == role || Includes(roles[1..], role)
  }

  /** `roleCheck(roles)` applied to a request whose user has role `role`. */
  function RoleCheck(roles: seq<string>, role: string): (d: Decision)
    ensures d.Proceed? <==> role in roles
    ensures d.Deny? ==> d.code == Forbidden && d.message == AccessDenied
  {
    if !Includes(roles, role) then Deny(Forbidden, AccessDenied) else Proceed
  }

  /** The response of a route guarded by the middleware: the handler's own
      outcome when the check lets the request through, the 403 otherwise. */
  function Guard<T>(d: Decision, handled: Outcome<T>): (r: Outcome<T>)
    ensures d.Proceed? ==> r == handled
    ensures d.Deny? ==> r == Rejected(d.code, d.message)
  {
    match d
    case Proceed => handled
    case Deny(code, message) => Rejected(code, message)
  }

  /** With no admitted roles, every request is refused with 403, whatever
      the handler would have answered. */
  lemma EmptyRolesDenyAll<T>(role: string, handled: Outcome<T>)
    ensures Guard(RoleCheck([], role), handled) == Rejected(Forbidden, AccessDenied)
  {
  }
}

=== FILE: candidate_profile.dfy ===
/** POST /candidate-profiles: a profile is stored only when no profile for
    the same user exists, so the collection keeps at most one per user. */
module CandidateProfileRoutes {
  import opened Http

  datatype Address = Address(street: Option<string>, city: Option<string>, state: Option<string>, zip: Option<string>)

  /** The ten fields of a creation request; `user` may be absent. */
  datatype ProfileBody = ProfileBody(
    user: Option<Id>,
    firstName: Option<string>,
    lastName: Option<string>,
    email: Option<string>,
    phone: Option<string>,
    education: Option<string>,
    experience: Option<string>,
    skills: Option<seq<string>>,
    resume: Option<string>,
    address: Option<Address>)

  /** A stored profile: the request fields and the two creation defaults. */
  datatype Profile = Profile(fields: ProfileBody, createdAt: int, updatedAt: int)

  const ProfileExists := "Profile already exists for this user."
  const UserRequired := "CandidateProfile validation failed: user: Path `user` is required."

  /** At most one profile per user. */
  predicate AtMostOnePerUser(profiles: seq<Profile>) {
    forall i, j :: 0 <= i < j < |profiles| ==> profiles[i].fields.user != profiles[j].fields.user
  }

  /** `findOne({user})`: the first profile of the given user. An absent
      user drops out of the filter, which then matches every profile, so
      the first profile of the collection is found. */
  function FindByUser(profiles: seq<Profile>, user: Option<Id>): (r: Option<Profile>)
    ensures user.None? ==> (r.None? <==> profiles == []) && (r.Some? ==> r.value == profiles[0])
    ensures user.Some? ==> (r.None? <==> forall p :: p in profiles ==> p.fields.user != user)
    ensures user.Some? && r.Some? ==> r.value in profiles && r.value.fields.user == user
  {
    if profiles == [] then None
    else if user.None? || profiles[0].fields.user == user then Some(profiles[0])
    else FindByUser(profiles[1..], user)
  }

  /** The handler's answer: 400 when the lookup finds a profile (one of the
      user, or any profile when the request names no user); otherwise the
      new profile carrying the request's fields unchanged, whose save fails
      (500) when it has no user. */
  function CreateOutcome(profiles: seq<Profile>, body: ProfileBody, now: int): (r: Outcome<Profile>)
    ensures body.user.Some? ==>
              (r == Rejected(BadRequest, ProfileExists) <==> exists p :: p in profiles && p.fields.user == body.user)
    ensures body.user.None? ==> (r == Rejected(BadRequest, ProfileExists) <==> profiles != [])
    ensures r == Rejected(ServerError, UserRequired) <==> body.user.None? && profiles == []
    ensures r.Created? <==> body.user.Some? && forall p :: p in profiles ==> p.fields.user != body.user
    ensures r.Created? ==> r.value.fields == body && r.value.createdAt == now && r.value.updatedAt == now
  {
    if FindByUser(profiles, body.user).Some? then Rejected(BadRequest, ProfileExists)
    else if body.user.None? then Rejected(ServerError, UserRequired)
    else Created(Profile(body, now, now))
  }

  /** One creation keeps the collection at most one profile per user. */
  lemma CreatePreservesUniqueness(profiles: seq<Profile>, body: ProfileBody, now: int)
    requires AtMostOnePerUser(profiles)
    ensures AtMostOnePerUser(Commit(profiles, CreateOutcome(profiles, body, now)))
  {
  }

  /** A creation request together with the instant it is handled. */
  datatype Request = Request(body: ProfileBody, now: int)

  /** The collection after a sequence of creation requests, each handled
      against the collection the previous ones left. */
  function CreateAll(profiles: seq<Profile>, requests: seq<Request>): seq<Profile>
    decreases |requests|
  {
    if requests == [] then profiles
    else
      var next := Commit(profiles, CreateOutcome(profiles, requests[0].body, requests[0].now));
      CreateAll(next, requests[1..])
  }

  /** From a collection with at most one profile per user, any sequence of
      creations keeps at most one profile per user. */
  lemma {:induction false} CreateAllPreservesUniqueness(profiles: seq<Profile>, requests: seq<Request>)
    requires AtMostOnePerUser(profiles)
    ensures AtMostOnePerUser(CreateAll(profiles, requests))
    decreases |requests|
  {
    if requests != [] {
      CreatePreservesUniqueness(profiles, requests[0].body, requests[0].now);
      CreateAllPreservesUniqueness(
        Commit(profiles, CreateOutcome(profiles, requests[0].body, requests[0].now)), requests[1..]);
    }
  }

  /** The profile collection. */
  class ProfileCollection {
    var profiles: seq<Profile>

    ghost predicate Valid()
      reads this
    {
      AtMostOnePerUser(profiles)
    }

    constructor ()
      ensures Valid() && profiles == []
    {
      profiles := [];
    }

    /** Check, then insert: a duplicate user, or a request without a user
        while any profile exists, is refused with 400; a request without a
        user fails the save with 500; either way the collection is
        unchanged. Otherwise exactly the new profile is appended and
        returned with status 201. */
    method Create(body: ProfileBody, now: int) returns (out: Outcome<Profile>)
      requires Valid()
      modifies this
      ensures Valid()
      ensures out == CreateOutcome(old(profiles), body, now)
      ensures profiles == Commit(old(profiles), out)
    {
      var existingProfile := FindByUser(profiles, body.user);
      if existingProfile.Some? {
        return Rejected(BadRequest, ProfileExists);
      }
      if body.user.None? {
        return Rejected(ServerError, UserRequired);
      }
      var profile := Profile(body, now, now);
      profiles := profiles + [profile];
      out := Created(profile);
      CreatePreservesUniqueness(old(profiles), body, now);
    }
  }
}

=== FILE: http.dfy ===
/** Vocabulary shared by the route handlers: document identifiers, the
    authenticated principal a request carries, optional request fields, and
    the outcome a handler answers with. */
module Http {

  /** A document identifier (a Mongo ObjectId, kept abstract). */
  type Id = nat

  /** A request or document field that may be absent (`undefined` in JavaScript). */
  datatype Option<+T> = None | Some(value: T) {
    function GetOr(default: T): T {
      if Some? then value else default
    }
  }

  /** The authenticated user an earlier middleware attached to the request (`req.user`). */
  datatype Principal = Principal(id: Id, role: string)

  /** What a handler answers: the document it created (status 201), or an
      error status code with its message. */
  datatype Outcome<+T> = Created(value: T) | Rejected(code: int, message: string)

  const BadRequest := 400
  const Forbidden := 403
  const ServerError := 500

  /** JavaScript truthiness of an optional string: present and not empty. */
  predicate Truthy(s: Option<string>) {
    s.Some? && s.value != ""
  }

  /** The collection after a handler ran: a created document is appended,
      a rejected request leaves it as it was. */
  function Commit<T>(store: seq<T>, out: Outcome<T>): (s: seq<T>)
    ensures out.Rejected? ==> s == store
    ensures out.Created? ==> |s| == |store| + 1 && s[..|store|] == store && s[|store|] == out.value
  {
    if out.Created? then store + [out.value] else store
  }
}

=== FILE: invitation_routes.dfy ===
/** The test-invitation routes: issuing an invitation (three ordered checks,
    then the new document) and listing invitations, which first expires
    every fetched invitation whose validity window has closed. */
module InvitationRoutes {
  import opened Http
  import opened Auth
  import opened InvitationSchema

  /** The body of an issue request. Dates are parsed instants, None for an
      absent or unparseable date. */
  datatype IssueBody = IssueBody(assessment: Option<Id>, user: Option<Id>,
                                 validFrom: Option<int>, validUntil: Option<int>)

  const IssuerRoles := ["hr", "admin"]
  const FromNotInFuture := "validFrom must be in the future."
  const UntilNotAfterFrom := "validUntil must be after validFrom."
  const AssessmentNotFound := "Assessment not found"

  /** JavaScript's `<=` on two dates: false as soon as one is Invalid Date. */
  predicate DateAtMost(a: Option<int>, b: Option<int>) {
    a.Some? && b.Some? && a.value <= b.value
  }

  /** JavaScript's `<` on two dates: false as soon as one is Invalid Date. */
  predicate DateBefore(a: Option<int>, b: Option<int>) {
    a.Some? && b.Some? && a.value < b.value
  }

  /** The handler of an issue request once the role check has passed:
      `validFrom` must lie after `now`, then `validUntil` after `validFrom`,
      then the assessment must exist; only then is the invitation built. */
  function Issue(body: IssueBody, assessments: set<Id>, createdBy: Id, freshId: Id, now: int): (r: Outcome<Invitation>)
    ensures r == Rejected(BadRequest, FromNotInFuture) <==> DateAtMost(body.validFrom, Some(now))
    ensures r == Rejected(BadRequest, UntilNotAfterFrom) <==>
              !DateAtMost(body.validFrom, Some(now)) && DateAtMost(body.validUntil, body.validFrom)
    ensures r == Rejected(BadRequest, AssessmentNotFound) <==>
              !DateAtMost(body.validFrom, Some(now)) && !DateAtMost(body.validUntil, body.validFrom) &&
              !(body.assessment.Some? && body.assessment.value in assessments)
    ensures r.Rejected? ==> r.code == BadRequest
    ensures r.Created? <==>
              !DateAtMost(body.validFrom, Some(now)) && !DateAtMost(body.validUntil, body.validFrom) &&
              body.assessment.Some? && body.assessment.value in assessments
    ensures r.Created? ==>
              && r.value.id == freshId
              && r.value.assessment == body.assessment && body.assessment.value in assessments
              && r.value.user == body.user
              && r.value.validFrom == body.validFrom && r.value.validUntil == body.validUntil
              && r.value.createdBy == Some(createdBy)
              && r.value.status == Pending && r.value.sentAt == now
  {
    if DateAtMost(body.validFrom, Some(now)) then
      Rejected(BadRequest, FromNotInFuture)
    else if DateAtMost(body.validUntil, body.validFrom) then
      Rejected(BadRequest, UntilNotAfterFrom)
    else if !(body.assessment.Some? && body.assessment.value in assessments) then
      Rejected(BadRequest, AssessmentNotFound)
    else
      Created(NewInvitation(freshId, body.assessment, None, None, body.validUntil,
                            body.user, body.validFrom, Some(createdBy), now))
  }

  /** An issued invitation whose two dates are both given has a window
      that opens after `now` and closes after it opens. */
  lemma IssuedWindowIsAhead(body: IssueBody, assessments: set<Id>, createdBy: Id, freshId: Id, now: int)
    requires Issue(body, assessments, createdBy, freshId, now).Created?
    requires body.validFrom.Some? && body.validUntil.Some?
    ensures now < body.validFrom.value < body.validUntil.value
  {
  }

  /** An absent or unparseable `validFrom` makes both date comparisons
      false, so such a request passes both date checks and only the
      assessment lookup can refuse it. */
  lemma MissingDatesSkipChecks(body: IssueBody, assessments: set<Id>, createdBy: Id, freshId: Id, now: int)
    requires body.validFrom.None?
    requires body.assessment.Some? && body.assessment.value in assessments
    ensures Issue(body, assessments, createdBy, freshId, now).Created?
  {
  }

  /** The document the route builds sets neither `candidate` nor `passkey`,
      both of which the schema requires. */
  lemma IssuedLacksRequiredFields(body: IssueBody, assessments: set<Id>, createdBy: Id, freshId: Id, now: int)
    requires Issue(body, assessments, createdBy, freshId, now).Created?
    ensures MissingRequired(Issue(body, assessments, createdBy, freshId, now).value) == Some("candidate")
    ensures Issue(body, assessments, createdBy, freshId, now).value.candidate.None?
    ensures Issue(body, assessments, createdBy, freshId, now).value.passkey.None?
  {
  }

  /** An invitation whose `validUntil` lies strictly before `now`. */
  predicate Due(inv: Invitation, now: int) {
    DateBefore(inv.validUntil, Some(now))
  }

  /** With an Invalid Date on either side, neither comparison holds in
      either order; with two valid dates, `a < b` holds exactly when
      `b <= a` fails. */
  lemma DateComparisons(a: Option<int>, b: Option<int>)
    ensures a.None? || b.None? ==>
              !DateAtMost(a, b) && !DateAtMost(b, a) && !DateBefore(a, b) && !DateBefore(b, a)
    ensures a.Some? && b.Some? ==> (DateBefore(a, b) <==> !DateAtMost(b, a))
  {
  }

  /** An invitation without a usable `validUntil` is never due, and one
      that is due stays due at every later instant. */
  lemma DueStaysDue(inv: Invitation, now: int, later: int)
    requires now <= later
    ensures inv.validUntil.None? ==> !Due(inv, now)
    ensures Due(inv, now) ==> Due(inv, later)
  {
  }

  /** One step of the sweep: a due invitation is marked expired. */
  function ExpireIfDue(inv: Invitation, now: int): (r: Invitation)
    ensures r == inv.(status := r.status)
    ensures r.status == Expired <==> Due(inv, now) || inv.status == Expired
    ensures !Due(inv, now) ==> r == inv
  {
    if Due(inv, now) then inv.(status := Expired) else inv
  }

  /** A list after the sweep keeps its length and order; each invitation
      changes at most in its status, the due ones end expired, and the
      others (including one whose `validUntil` equals `now`) are untouched. */
  function Swept(s: seq<Invitation>, now: int): (r: seq<Invitation>)
    ensures |r| == |s|
    ensures forall i :: 0 <= i < |s| ==> r[i] == s[i].(status := r[i].status)
    ensures forall i :: 0 <= i < |s| ==> (r[i].status == Expired <==> Due(s[i], now) || s[i].status == Expired)
    ensures forall i :: 0 <= i < |s| && !Due(s[i], now) ==> r[i] == s[i]
  {
    seq(|s|, i requires 0 <= i < |s| => ExpireIfDue(s[i], now))
  }

  /** Positions, from `from` on and in increasing order, of the documents
      whose status is not `expired`. */
  function NotExpiredPositions(s: seq<Invitation>, from: nat): (r: seq<nat>)
    requires from <= |s|
    ensures forall i :: 0 <= i < |r| ==> from <= r[i] < |s| && s[r[i]].status != Expired
    ensures forall i, i' :: 0 <= i < i' < |r| ==> r[i] < r[i']
    ensures forall j :: from <= j < |s| && s[j].status != Expired ==> j in r
    decreases |s| - from
  {
    if from == |s| then []
    else if s[from].status != Expired then [from] + NotExpiredPositions(s, from + 1)
    else NotExpiredPositions(s, from + 1)
  }

  /** The documents of `s` at the given positions, in that order. */
  function AtPositions(s: seq<Invitation>, picks: seq<nat>): (r: seq<Invitation>)
    requires forall i :: 0 <= i < |picks| ==> picks[i] < |s|
    ensures |r| == |picks|
    ensures forall i :: 0 <= i < |picks| ==> r[i] == s[picks[i]]
  {
    seq(|picks|, i requires 0 <= i < |picks| => s[picks[i]])
  }

  /** `find({status: {$ne: 'expired'}})`: the non-expired documents, in
      collection order. */
  function FindNotExpired(docs: seq<Invitation>): (r: seq<Invitation>)
    ensures forall inv :: inv in r <==> inv in docs && inv.status != Expired
    ensures |r| == |NotExpiredPositions(docs, 0)|
    ensures forall i :: 0 <= i < |r| ==> r[i] == docs[NotExpiredPositions(docs, 0)[i]]
  {
    var picks := NotExpiredPositions(docs, 0);
    var r := AtPositions(docs, picks);
    assert forall inv :: inv in docs && inv.status != Expired ==> inv in r by {
      forall inv | inv in docs && inv.status != Expired
        ensures inv in r
      {
        var j :| 0 <= j < |docs| && docs[j] == inv;
        var i :| 0 <= i < |picks| && picks[i] == j;
        assert r[i] == inv;
      }
    }
    r
  }

  /** The collection after the first `k` fetched positions have been
      visited by the listing loop: each due one is saved back expired. */
  ghost function PartlySwept(d: seq<Invitation>, picks: seq<nat>, k: nat, now: int): (r: seq<Invitation>)
    requires k <= |picks|
    requires forall i :: 0 <= i < |picks| ==> picks[i] < |d|
    ensures |r| == |d|
  {
    if k == 0 then d
    else
      var prev := PartlySwept(d, picks, k - 1, now);
      var p := picks[k - 1];
      if Due(d[p], now) then prev[p := d[p].(status := Expired)] else prev
  }

  lemma {:induction false} PartlySweptAt(d: seq<Invitation>, picks: seq<nat>, k: nat, now: int, j: nat)
    requires k <= |picks|
    requires forall i :: 0 <= i < |picks| ==> picks[i] < |d|
    requires forall i, i' :: 0 <= i < i' < |picks| ==> picks[i] < picks[i']
    requires j < |d|
    ensures PartlySwept(d, picks, k, now)[j] == if j in picks[..k] then ExpireIfDue(d[j], now) else d[j]
  {
    if k > 0 {
      PartlySweptAt(d, picks, k - 1, now, j);
      assert picks[..k] == picks[..k - 1] + [picks[k - 1]];
      if j == picks[k - 1] {
        assert j !in picks[..k - 1];
      }
    }
  }

  /** Visiting every fetched position sweeps the whole collection: the
      positions not fetched hold expired documents, which the sweep keeps. */
  lemma FullySwept(d: seq<Invitation>, now: int)
    ensures PartlySwept(d, NotExpiredPositions(d, 0), |NotExpiredPositions(d, 0)|, now) == Swept(d, now)
  {
    var picks := NotExpiredPositions(d, 0);
    var r := PartlySwept(d, picks, |picks|, now);
    forall j | 0 <= j < |d|
      ensures r[j] == Swept(d, now)[j]
    {
      PartlySweptAt(d, picks, |picks|, now, j);
      assert picks[..|picks|] == picks;
    }
  }

  /** The sweep changes no identifier, so a collection with unique
      identifiers keeps them unique. */
  lemma SweepKeepsIds(d: seq<Invitation>, now: int)
    requires UniqueIds(d)
    ensures UniqueIds(Swept(d, now))
  {
  }

  /** Sweeping is idempotent: a second sweep at the same instant changes nothing. */
  lemma SweepIdempotent(s: seq<Invitation>, now: int)
    ensures Swept(Swept(s, now), now) == Swept(s, now)
  {
  }

  /** After a sweep, nothing the next listing fetches is due. */
  lemma NothingDueAfterSweep(docs: seq<Invitation>, now: int)
    ensures forall inv :: inv in FindNotExpired(Swept(docs, now)) ==> !Due(inv, now)
  {
  }

  /** A second listing at the same instant returns the fetched invitations
      unchanged and leaves the collection as the first listing left it. */
  lemma SecondListingChangesNothing(docs: seq<Invitation>, now: int)
    ensures Swept(FindNotExpired(Swept(docs, now)), now) == FindNotExpired(Swept(docs, now))
    ensures Swept(Swept(docs, now), now) == Swept(docs, now)
  {
  }

  /** The invitation collection, which the routes read and update. */
  class InvitationCollection {
    var docs: seq<Invitation>

    ghost predicate Valid()
      reads this
    {
      UniqueIds(docs)
    }

    constructor ()
      ensures Valid() && docs == []
    {
      docs := [];
    }

    /** POST /test-invitations, guarded by `roleCheck(['hr', 'admin'])`;
        `freshId` is the identifier the store assigns to a new document. */
    method Post(caller: Principal, body: IssueBody, assessments: set<Id>, freshId: Id, now: int)
      returns (out: Outcome<Invitation>)
      requires Valid()
      requires forall d :: d in docs ==> d.id != freshId
      modifies this
      ensures Valid()
      ensures out == Guard(RoleCheck(IssuerRoles, caller.role), Issue(body, assessments, caller.id, freshId, now))
      ensures docs == Commit(old(docs), out)
    {
      var gate := RoleCheck(IssuerRoles, caller.role);
      if gate.Deny? {
        return Rejected(gate.code, gate.message);
      }
      out := Issue(body, assessments, caller.id, freshId, now);
      if out.Created? {
        docs := docs + [out.value];
      }
    }

    /** GET /test-invitations: fetch the non-expired invitations, expire
        each due one in the fetched list and save it back, and return the
        list. */
    method List(now: int) returns (fetched: array<Invitation>)
      requires Valid()
      modifies this
      ensures Valid()
      ensures fresh(fetched)
      ensures fetched[..] == Swept(FindNotExpired(old(docs)), now)
      ensures docs == Swept(old(docs), now)
    {
      ghost var d0 := docs;
      var picks := NotExpiredPositions(docs, 0);
      var found := FindNotExpired(docs);
      assert found == AtPositions(d0, picks);
      fetched := new Invitation[|found|](i requires 0 <= i < |found| => found[i]);
      ExpireEach(fetched, picks, now);
      FullySwept(d0, now);
      SweepKeepsIds(d0, now);
    }

    /** The `forEach` over the fetched list: a due invitation gets status
        `expired` in the list and is saved back at its position. */
    method ExpireEach(fetched: array<Invitation>, picks: seq<nat>, now: int)
      requires Valid()
      requires fetched.Length == |picks|
      requires forall i :: 0 <= i < |picks| ==> picks[i] < |docs| && fetched[i] == docs[picks[i]]
      modifies this, fetched
      ensures Valid()
      ensures fetched[..] == Swept(old(fetched[..]), now)
      ensures docs == PartlySwept(old(docs), picks, |picks|, now)
    {
      ghost var d0 := docs;
      ghost var found := fetched[..];
      var k := 0;
      while k < fetched.Length
        invariant 0 <= k <= fetched.Length
        invariant forall i :: 0 <= i < k ==> fetched[i] == ExpireIfDue(found[i], now)
        invariant forall i :: k <= i < fetched.Length ==> fetched[i] == found[i]
        invariant docs == PartlySwept(d0, picks, k, now)
        invariant |docs| == |d0| && forall j :: 0 <= j < |docs| ==> docs[j].id == d0[j].id
        invariant Valid()
      {
        var invitation := fetched[k];
        if DateBefore(invitation.validUntil, Some(now)) {
          invitation := invitation.(status := Expired);
          fetched[k] := invitation;
          docs := docs[picks[k] := invitation];
        }
        k := k + 1;
      }
    }
  }
}

=== FILE: invitation_schema.dfy ===
/** The test-invitation document: its status and result enumerations, the
    defaults a new document receives, and its required fields. */
module InvitationSchema {
  import opened Http

  /** The `status` enumeration; a document holds exactly one of these. */
  datatype Status = Pending | Accepted | Completed | Expired

  /** The `result.status` enumeration. */
  datatype ResultStatus = Passed | Failed | NotAttempted

  const StatusNames := ["pending", "accepted", "completed", "expired"]
  const ResultStatusNames := ["passed", "failed", "not_attempted"]

  function StatusName(s: Status): (name: string)
    ensures name in StatusNames
  {
    match s
    case Pending => "pending"
    case Accepted => "accepted"
    case Completed => "completed"
    case Expired => "expired"
  }

  function ResultStatusName(s: ResultStatus): (name: string)
    ensures name in ResultStatusNames
  {
    match s
    case Passed => "passed"
    case Failed => "failed"
    case NotAttempted => "not_attempted"
  }

  /** Casting a stored `status` string: an absent value takes the default
      `pending`; a present one must be one of the four enumeration names,
      and otherwise the document fails validation (None). */
  function CastStatus(given: Option<string>): (r: Option<Status>)
    ensures given.None? ==> r == Some(Pending)
    ensures given.Some? ==> (r.Some? <==> given.value in StatusNames)
    ensures given.Some? && r.Some? ==> StatusName(r.value) == given.value
  {
    match given
    case None => Some(Pending)
    case Some(name) =>
      if name == "pending" then Some(Pending)
      else if name == "accepted" then Some(Accepted)
      else if name == "completed" then Some(Completed)
      else if name == "expired" then Some(Expired)
      else None
  }

  /** Casting a stored `result.status` string, with default `not_attempted`. */
  function CastResultStatus(given: Option<string>): (r: Option<ResultStatus>)
    ensures given.None? ==> r == Some(NotAttempted)
    ensures given.Some? ==> (r.Some? <==> given.value in ResultStatusNames)
    ensures given.Some? && r.Some? ==> ResultStatusName(r.value) == given.value
  {
    match given
    case None => Some(NotAttempted)
    case Some(name) =>
      if name == "passed" then Some(Passed)
      else if name == "failed" then Some(Failed)
      else if name == "not_attempted" then Some(NotAttempted)
      else None
  }

  /** Every enumeration value survives being written out and cast back. */
  lemma StatusNamesRoundTrip(s: Status, rs: ResultStatus)
    ensures CastStatus(Some(StatusName(s))) == Some(s)
    ensures CastResultStatus(Some(ResultStatusName(rs))) == Some(rs)
  {
  }

  datatype InvitationResult = InvitationResult(score: Option<int>, status: ResultStatus)

  /** One entry of the append-only incident log. */
  datatype Incident = Incident(description: Option<string>, timestamp: int)

  /** A new incident entry; its timestamp defaults to the creation instant. */
  function NewIncident(description: Option<string>, timestamp: Option<int>, now: int): (r: Incident)
    ensures r.description == description
    ensures timestamp.None? ==> r.timestamp == now
    ensures timestamp.Some? ==> r.timestamp == timestamp.value
  {
    Incident(description, timestamp.GetOr(now))
  }

  /** A test-invitation document. Dates are instants, None standing for an
      absent or unparseable date (JavaScript's Invalid Date). The last three
      fields are written by the issuing route although the schema does not
      declare them. */
  datatype Invitation = Invitation(
    id: Id,
    assessment: Option<Id>,
    candidate: Option<Id>,
    passkey: Option<string>,
    status: Status,
    result: InvitationResult,
    incidents: seq<Incident>,
    sentAt: int,
    completedAt: Option<int>,
    validUntil: Option<int>,
    user: Option<Id>,
    validFrom: Option<int>,
    createdBy: Option<Id>)

  /** A new document built from the given fields: every field the caller
      leaves unset takes its schema default (status and result status by
      casting an absent value, no incidents, sent now, not completed). */
  function NewInvitation(id: Id, assessment: Option<Id>, candidate: Option<Id>, passkey: Option<string>,
                         validUntil: Option<int>, user: Option<Id>, validFrom: Option<int>,
                         createdBy: Option<Id>, now: int): (r: Invitation)
    ensures Some(r.status) == CastStatus(None) && r.status == Pending
    ensures Some(r.result.status) == CastResultStatus(None) && r.result.score.None?
    ensures r.incidents == [] && r.sentAt == now && r.completedAt.None?
    ensures r.id == id && r.assessment == assessment && r.candidate == candidate && r.passkey == passkey
    ensures r.validUntil == validUntil && r.user == user && r.validFrom == validFrom && r.createdBy == createdBy
  {
    Invitation(id, assessment, candidate, passkey, Pending, InvitationResult(None, NotAttempted),
               [], now, None, validUntil, user, validFrom, createdBy)
  }

  /** The schema's required paths are all present; a required string path
      also fails on the empty string. */
  predicate HasRequired(inv: Invitation) {
    inv.assessment.Some? && inv.candidate.Some? && Truthy(inv.passkey)
  }

  /** The first required path, in schema order, that the document lacks. */
  function MissingRequired(inv: Invitation): (path: Option<string>)
    ensures path.None? <==> HasRequired(inv)
    ensures path == Some("assessment") <==> inv.assessment.None?
    ensures path == Some("candidate") <==> inv.assessment.Some? && inv.candidate.None?
    ensures path == Some("passkey") <==> inv.assessment.Some? && inv.candidate.Some? && !Truthy(inv.passkey)
    ensures path.Some? ==> path.value in ["assessment", "candidate", "passkey"]
  {
    if inv.assessment.None? then Some("assessment")
    else if inv.candidate.None? then Some("candidate")
    else if !Truthy(inv.passkey) then Some("passkey")
    else None
  }

  /** No two documents of the collection share an identifier. */
  predicate UniqueIds(docs: seq<Invitation>) {
    forall i, j :: 0 <= i < j < |docs| ==> docs[i].id != docs[j].id
  }

  /** `findById`: the first document of the collection with the given
      identifier; an absent identifier finds nothing. */
  function FindById(docs: seq<Invitation>, id: Option<Id>): (r: Option<Invitation>)
    ensures r.None? <==> id.None? || forall d :: d in docs ==> d.id != id.value
    ensures r.Some? ==> r.value in docs && r.value.id == id.value
  {
    if id.None? || docs == [] then None
    else if docs[0].id == id.value then Some(docs[0])
    else FindById(docs[1..], id)
  }
}

=== FILE: question_routes.dfy ===
/** The question routes: the filter GET /questions builds from its query
    parameters, and the question POST /questions builds for a named
    question type. */
module QuestionRoutes {
  import opened Http
  import opened Auth

  /** The query parameters of GET /questions, each absent or a string. */
  datatype QuestionQuery = QuestionQuery(difficulty: Option<string>, isLibraryQuestion: Option<string>,
                                         questionType: Option<string>, createdBy: Option<string>)

  /** A value of the filter: a string to match, or a flag. */
  datatype FilterValue = Text(text: string) | Flag(flag: bool)

  const FilterKeys := {"difficulty", "isLibraryQuestion", "questionType", "createdBy"}

  /** Builds the filter key by key: each parameter whose value is truthy
      adds its key; `isLibraryQuestion` becomes a flag that is true exactly
      for the string "true". */
  method BuildFilter(q: QuestionQuery) returns (filter: map<string, FilterValue>)
    ensures filter.Keys <= FilterKeys
    ensures "difficulty" in filter <==> Truthy(q.difficulty)
    ensures "difficulty" in filter ==> filter["difficulty"] == Text(q.difficulty.value)
    ensures "isLibraryQuestion" in filter <==> Truthy(q.isLibraryQuestion)
    ensures "isLibraryQuestion" in filter ==>
              filter["isLibraryQuestion"] == Flag(q.isLibraryQuestion.value == "true")
    ensures "questionType" in filter <==> Truthy(q.questionType)
    ensures "questionType" in filter ==> filter["questionType"] == Text(q.questionType.value)
    ensures "createdBy" in filter <==> Truthy(q.createdBy)
    ensures "createdBy" in filter ==> filter["createdBy"] == Text(q.createdBy.value)
    ensures filter == map[] <==>
              !Truthy(q.difficulty) && !Truthy(q.isLibraryQuestion) && !Truthy(q.questionType) && !Truthy(q.createdBy)
  {
    filter := map[];
    if Truthy(q.difficulty) {
      filter := filter["difficulty" := Text(q.difficulty.value)];
    }
    if Truthy(q.isLibraryQuestion) {
      filter := filter["isLibraryQuestion" := Flag(q.isLibraryQuestion.value == "true")];
    }
    if Truthy(q.questionType) {
      filter := filter["questionType" := Text(q.questionType.value)];
    }
    if Truthy(q.createdBy) {
      filter := filter["createdBy" := Text(q.createdBy.value)];
    }
  }

  /** A question-type document, found by its `name`. */
  datatype QuestionType = QuestionType(id: Id, name: string)

  /** The body of POST /questions; `questionType` is the type's name, and
      may be absent. */
  datatype QuestionBody = QuestionBody(questionText: Option<string>, questionType: Option<string>, options: Option<seq<Id>>,
                                       difficulty: Option<string>, fillInTheBlanks: Option<seq<string>>,
                                       paragraphText: Option<string>)

  /** The question object the handler builds before it is stored. */
  datatype Question = Question(questionText: Option<string>, questionType: Id, options: Option<seq<Id>>,
                               difficulty: Option<string>, createdBy: Id, isLibraryQuestion: bool,
                               fillInTheBlanks: Option<seq<string>>, paragraphText: Option<string>)

  const AuthorRoles := ["technical_expert"]
  const InvalidQuestionType := "Invalid question type"
  const FillInTheBlanksType := "fill_in_the_blanks"
  const ParagraphType := "paragraph"

  /** `findOne({name})`: the first question type with the given name. An
      absent name drops out of the filter, which then matches every type,
      so the first type of the collection is found. */
  function FindTypeByName(types: seq<QuestionType>, name: Option<string>): (r: Option<QuestionType>)
    ensures name.None? ==> (r.None? <==> types == []) && (r.Some? ==> r.value == types[0])
    ensures name.Some? ==> (r.None? <==> forall t :: t in types ==> t.name != name.value)
    ensures name.Some? && r.Some? ==> r.value in types && r.value.name == name.value
    ensures name.Some? && r.Some? && types[0].name == name.value ==> r.value == types[0]
    ensures name.Some? && r.Some? ==>
              exists i :: 0 <= i < |types| && types[i] == r.value && forall j :: 0 <= j < i ==> types[j].name != name.value
  {
    if types == [] then None
    else if name.None? || types[0].name == name.value then Some(types[0])
    else FindTypeByName(types[1..], name)
  }

  /** POST /questions, guarded by `roleCheck(['technical_expert'])`: the
      named type must exist; the question is a library question of the
      caller, and carries blanks or paragraph text only for the matching
      type name. */
  method CreateQuestion(types: seq<QuestionType>, caller: Principal, body: QuestionBody)
    returns (out: Outcome<Question>)
    ensures caller.role !in AuthorRoles ==> out == Rejected(Forbidden, AccessDenied)
    ensures caller.role in AuthorRoles ==>
              (out == Rejected(BadRequest, InvalidQuestionType) <==>
               FindTypeByName(types, body.questionType).None?)
    ensures out.Rejected? ==> out.code in {Forbidden, BadRequest}
    ensures out.Created? <==> caller.role in AuthorRoles && FindTypeByName(types, body.questionType).Some?
    ensures out.Created? ==>
              && caller.role in AuthorRoles
              && FindTypeByName(types, body.questionType).Some?
              && out.value.questionType == FindTypeByName(types, body.questionType).value.id
              && out.value.isLibraryQuestion
              && out.value.createdBy == caller.id
              && out.value.questionText == body.questionText
              && out.value.options == body.options
              && out.value.difficulty == body.difficulty
    ensures caller.role in AuthorRoles && body.questionType.None? && types != [] ==>
              out.Created? && out.value.questionType == types[0].id
    ensures out.Created? ==>
              (out.value.fillInTheBlanks.Some? <==>
               body.questionType == Some(FillInTheBlanksType) && body.fillInTheBlanks.Some?)
    ensures out.Created? && out.value.fillInTheBlanks.Some? ==> out.value.fillInTheBlanks == body.fillInTheBlanks
    ensures out.Created? ==>
              (out.value.paragraphText.Some? <==> body.questionType == Some(ParagraphType) && Truthy(body.paragraphText))
    ensures out.Created? && out.value.paragraphText.Some? ==> out.value.paragraphText == body.paragraphText
  {
    var gate := RoleCheck(AuthorRoles, caller.role);
    if gate.Deny? {
      return Rejected(gate.code, gate.message);
    }
    var questionTypeDoc := FindTypeByName(types, body.questionType);
    if questionTypeDoc.None? {
      return Rejected(BadRequest, InvalidQuestionType);
    }
    var question := Question(body.questionText, questionTypeDoc.value.id, body.options, body.difficulty,
                             caller.id, true, None, None);
    if body.questionType == Some(FillInTheBlanksType) && body.fillInTheBlanks.Some? {
      question := question.(fillInTheBlanks := body.fillInTheBlanks);
    }
    if body.questionType == Some(ParagraphType) && Truthy(body.paragraphText) {
      question := question.(paragraphText := body.paragraphText);
    }
    out := Created(question);
  }
}

=== FILE: review_routes.dfy ===
/** POST /reviews: a review may be stored only for an invitation that exists
    and is completed; the reviewer is the authenticated user. */
module ReviewRoutes {
  import opened Http
  import opened InvitationSchema
  import opened InvitationRoutes
  import opened ReviewSchema

  /** The body of a review request. */
  datatype ReviewBody = ReviewBody(testInvitation: Option<Id>, rating: Option<int>, comments: Option<string>)

  const NotCompleted := "Assessment must be completed to submit a review."
  const ValidationFailed := "Review validation failed"

  /** The invitation the review refers to resolves and is completed. */
  predicate Reviewable(invitations: seq<Invitation>, id: Option<Id>) {
    var found := FindById(invitations, id);
    found.Some? && found.value.status == Completed
  }

  /** In a collection whose identifiers are unique, the gate lets a review
      through exactly when the invitation it names exists and is completed. */
  lemma ReviewableIffCompleted(invitations: seq<Invitation>, id: Option<Id>)
    requires UniqueIds(invitations)
    ensures Reviewable(invitations, id) <==>
              id.Some? && exists d :: d in invitations && d.id == id.value && d.status == Completed
  {
    var found := FindById(invitations, id);
    if found.Some? {
      forall d | d in invitations && d.id == id.value
        ensures d == found.value
      {
        var i :| 0 <= i < |invitations| && invitations[i] == d;
        var j :| 0 <= j < |invitations| && invitations[j] == found.value;
        assert i == j;
      }
    }
  }

  /** The handler: the completion gate answers 400; a review that breaks
      the schema's bounds fails on save, which the handler reports as 500;
      otherwise the review is created for the calling user. */
  function SubmitReview(invitations: seq<Invitation>, body: ReviewBody, caller: Id, now: int): (r: Outcome<Review>)
    ensures r == Rejected(BadRequest, NotCompleted) <==> !Reviewable(invitations, body.testInvitation)
    ensures r.Created? <==>
              && Reviewable(invitations, body.testInvitation)
              && body.rating.Some? && MinRating <= body.rating.value <= MaxRating
              && (body.comments.None? || |body.comments.value| <= MaxCommentsLength)
    ensures r.Rejected? && r.code == ServerError <==>
              Reviewable(invitations, body.testInvitation) && !r.Created?
    ensures r.Created? ==>
              && r.value.candidate == Some(caller)
              && r.value.testInvitation == body.testInvitation
              && r.value.rating == body.rating && r.value.comments == body.comments
              && r.value.createdAt == now
              && WellFormed(r.value)
  {
    var invitation := FindById(invitations, body.testInvitation);
    if invitation.None? || invitation.value.status != Completed then
      Rejected(BadRequest, NotCompleted)
    else
      var review := NewReview(body.testInvitation, Some(caller), body.rating, body.comments, now);
      if FailedPath(review).Some? then Rejected(ServerError, ValidationFailed)
      else Created(review)
  }

  /** A rejected submission leaves the review collection as it was; an
      accepted one adds exactly the created review. */
  lemma SubmissionStoresAtMostOne(reviews: seq<Review>, invitations: seq<Invitation>, body: ReviewBody,
                                  caller: Id, now: int)
    ensures var out := SubmitReview(invitations, body, caller, now);
            && (out.Rejected? ==> Commit(reviews, out) == reviews)
            && (out.Created? ==> Commit(reviews, out) == reviews + [out.value])
  {
  }

  /** Looking an invitation up after a sweep finds the swept version of the
      invitation found before it. */
  lemma {:induction false} FindByIdAfterSweep(docs: seq<Invitation>, id: Option<Id>, now: int)
    ensures FindById(Swept(docs, now), id) ==
              if FindById(docs, id).Some? then Some(ExpireIfDue(FindById(docs, id).value, now)) else None
  {
    if id.Some? && docs != [] && docs[0].id != id.value {
      assert Swept(docs, now)[1..] == Swept(docs[1..], now);
      FindByIdAfterSweep(docs[1..], id, now);
    }
  }

  /** Listing expires every due invitation whatever its status, so a
      completed invitation whose `validUntil` has passed can no longer be
      reviewed once the list has been read. */
  lemma ListingBlocksReviewOfDueInvitation(docs: seq<Invitation>, body: ReviewBody, caller: Id, now: int)
    requires Reviewable(docs, body.testInvitation)
    requires Due(FindById(docs, body.testInvitation).value, now)
    ensures SubmitReview(Swept(docs, now), body, caller, now) == Rejected(BadRequest, NotCompleted)
  {
    FindByIdAfterSweep(docs, body.testInvitation, now);
  }
}

=== FILE: review_schema.dfy ===
/** The review document: a star rating of a completed invitation, with
    optional comments. */
module ReviewSchema {
  import opened Http

  const MinRating := 1
  const MaxRating := 5
  const MaxCommentsLength := 500

  datatype Review = Review(testInvitation: Option<Id>, candidate: Option<Id>,
                           rating: Option<int>, comments: Option<string>, createdAt: int)

  /** The schema's constraints: both references and the rating are
      required, the rating lies in 1..5, and comments, when given, are at
      most 500 characters long. */
  predicate WellFormed(r: Review) {
    && r.testInvitation.Some?
    && r.candidate.Some?
    && r.rating.Some? && MinRating <= r.rating.value <= MaxRating
    && (r.comments.None? || |r.comments.value| <= MaxCommentsLength)
  }

  /** Both references and a rating in range: every constraint before `comments`. */
  predicate WellFormedUpToComments(r: Review) {
    r.testInvitation.Some? && r.candidate.Some? && r.rating.Some? && MinRating <= r.rating.value <= MaxRating
  }

  /** Validation on save: the first path, in schema order, whose constraint
      the document breaks, or None when it may be stored. */
  function FailedPath(r: Review): (path: Option<string>)
    ensures path.None? <==> WellFormed(r)
    ensures path == Some("testInvitation") <==> r.testInvitation.None?
    ensures path == Some("candidate") <==> r.testInvitation.Some? && r.candidate.None?
    ensures path == Some("rating") <==>
              r.testInvitation.Some? && r.candidate.Some? &&
              !(r.rating.Some? && MinRating <= r.rating.value <= MaxRating)
    ensures path == Some("comments") <==>
              WellFormedUpToComments(r) && r.comments.Some? && |r.comments.value| > MaxCommentsLength
  {
    if r.testInvitation.None? then Some("testInvitation")
    else if r.candidate.None? then Some("candidate")
    else if r.rating.None? || r.rating.value < MinRating || MaxRating < r.rating.value then Some("rating")
    else if r.comments.Some? && |r.comments.value| > MaxCommentsLength then Some("comments")
    else None
  }

  /** A new review document; `createdAt` takes its default, the creation instant. */
  function NewReview(testInvitation: Option<Id>, candidate: Option<Id>, rating: Option<int>,
                     comments: Option<string>, now: int): (r: Review)
    ensures r.testInvitation == testInvitation && r.candidate == candidate
    ensures r.rating == rating && r.comments == comments
    ensures r.createdAt == now
  {
    Review(testInvitation, candidate, rating, comments, now)
  }
}
